=== FILE: README.md ===
# Pomodoro clock: a Dafny model of its state machine

The repository is a single React component, a pomodoro clock. It alternates a
work *session* with a *break*. The lengths of both can be edited in a settings
panel, and the clock shows the time left as `MM:SS`. Take away the hooks, the
timers and the JSX, and what is left is a small sequential state machine over one
record `{status, sessionTime, breakTime, timeLeft, showSettings}`. This project
models that machine with pure functions and proves its properties:

- `Timer` (`timer.dfy`): the five-status `Status` datatype, the state record,
  the initial state and the running test.
- `Display` (`display.dfy`): the `MM:SS` formatting, built the way the component
  builds it. That means JavaScript's decimal `String`, `Math.floor`, the
  truncating `%` and `('0' + x).slice(-2)`. It also has a parser, used to prove
  that formatting round-trips in both directions.
- `Handlers` (`handlers.dfy`): the start/stop, reset, settings-reset and flip
  handlers, and the increment, decrement and direct-entry controls for the two
  lengths. Each one is composed with the effect that reloads `timeLeft` whenever
  `sessionTime` changes. Like React, `Sync` runs that effect only when the value
  actually changed.
- `Phase` (`phase.dfy`): one interval tick, the phase rule, the rule's re-firing
  cascade (`Settle`), an atomic step (tick, then settle) and runs of steps.
- `Widget` (`widget.dfy`): every control and the tick as an `Event`, with
  dispatch and replay from the initial state. It proves the invariant of every
  settled reachable state and concrete scenarios: on load the clock shows
  25:00, and a session of `m` minutes hands over to the break after exactly
  `m * 60` ticks.

Behaviours of the code worth knowing:

- The increment guard is `< 60`, so a length can reach 60 minutes.
- The `sessionTime` effect reloads `timeLeft` whatever the status, also while
  the clock runs or is paused.
- The break entry accepts 0, so a break can last zero minutes. The phase rule
  then fires twice in a row: the session ends, the empty break ends at once, and
  a new session starts.
- Reset and settings reset compute `timeLeft` from the stale `sessionTime`. When the
  length was not 25 the effect that follows repairs it; when it was, the effect
  does not run and the stale value is already 1500. Either way both end with
  25:00 on the clock.

## Model

| member | source | states |
|---|---|---|
| Timer.Initial | src/App.js:3-17 | on load the status is default, the settings are hidden and the clock holds a full session |
| Timer.IsRunning | src/App.js:29 | the clock runs exactly in the session and break statuses, never at default or in a pause |
| Display.Decimal | src/App.js:28 | the decimal rendering of a non-negative number is all digits, has no leading zero, and is a single digit exactly below 10 |
| Display.DecimalRoundTrip | src/App.js:28 | reading the decimal rendering back gives the number |
| Display.JsString | src/App.js:28 | a number's string starts with a minus sign exactly when the number is negative, every other character is a digit, and there is no leading zero |
| Display.JsStringRoundTrip | src/App.js:28 | reading a number's string back, sign included, gives the number |
| Display.JsRem | src/App.js:28 | the remainder is truncating: below the divisor in size, differing from the dividend by a multiple of the divisor, and with the dividend's sign |
| Display.FloorDiv | src/App.js:28 | the whole minutes are the floor of the quotient |
| Display.Last2 | src/App.js:28 | `slice(-2)` keeps the last two characters, or the whole string when it is shorter |
| Display.Pad2 | src/App.js:28 | `('0' + x).slice(-2)` always has two characters and ends with the last character of `String(x)`; a single digit gets a leading `0`, so zero pads to `00` |
| Display.Format | src/App.js:28 | the display of any time has five characters with the colon in the middle |
| Display.Pad2Digits | src/App.js:28 | the zero pad of a number below 100 is its tens digit followed by its units digit |
| Display.ParseClock | src/App.js:28 | a string reads as a time exactly when it has the `DD:DD` shape |
| Display.FormatShape | src/App.js:28 | for every time below 100 minutes the display has five characters: two minute digits, a colon and two second digits |
| Display.FormatRoundTrip | src/App.js:28 | formatting then reading back gives the time, so the display is lossless below 100 minutes |
| Display.ParseRoundTrip | src/App.js:28 | every `MM:SS` with seconds below 60 is the display of the time it reads as |
| Display.NeverZeroDisplay | src/App.js:28 | no positive time below 100 minutes is displayed as `00:00` |
| Display.DefaultSessionDisplay | src/App.js:17-28 | a full default session of 1500 seconds is displayed as `25:00` |
| Display.FormatSpells | src/App.js:28 | the display of a time with `m` whole minutes (below 100) and `sec` leftover seconds spells the two digits of `m`, a colon and the two digits of `sec` |
| Handlers.Toggle | src/App.js:85-92 | every press changes the status, flips whether the clock runs and never returns to default |
| Handlers.ToggleIsMoves | src/App.js:85-92 | the start/stop control produces exactly the five listed moves, in both directions |
| Handlers.StartStop | src/App.js:85-92 | start/stop makes a listed move and leaves the lengths, the time left and the panel alone |
| Handlers.StartStopTwice | src/App.js:85-92 | from any status but default, two presses give the state back |
| Handlers.StartFromDefault | src/App.js:85-92 | from default one press gives a session, never a break or a pause |
| Handlers.StartStopFlipsRunning | src/App.js:29-92 | every press flips whether the clock runs, a break is only resumed and never entered by it, and default is never re-entered |
| Handlers.Sync | src/App.js:52 | the time left is reloaded from the session length iff that length changed, and nothing else changes |
| Handlers.ResetHandler | src/App.js:94-101 | the reset handler alone sets default and 25/5, with the seconds of the stale session length |
| Handlers.Reset | src/App.js:94-101 | reset, followed by the effect, always ends at default with 25/5 minutes and 1500 seconds, and keeps the panel |
| Handlers.ResetStaleReadRepaired | src/App.js:94-101 | from any other session length the handler alone would not show 25:00, and the effect restores 25:00 |
| Handlers.SettingsReset | src/App.js:103-107 | the settings reset restores 25/5 and 1500 seconds and keeps the status |
| Handlers.Flip | src/App.js:109-111 | the flip changes the panel visibility and nothing else |
| Handlers.FlipTwice | src/App.js:109-111 | flipping twice gives the state back |
| Handlers.SetLength | src/App.js:52 | a length setter stores the value; for the session a changed value also reloads the clock, and an unchanged one is a no-op |
| Handlers.Increment | src/App.js:218-248 | `+` adds one minute below 60 and is a no-op at 60 or above; the other length and the status are kept, and the break `+` leaves the clock alone |
| Handlers.Decrement | src/App.js:235-265 | `-` removes one minute above 1 and is a no-op at 1 or below; the other length and the status are kept, and the break `-` leaves the clock alone |
| Handlers.Enter | src/App.js:227-260 | an entry in range replaces the length, any other entry is ignored, an accepted new session value reloads the clock, and re-entering the current session length changes nothing |
| Handlers.EnterAcceptance | src/App.js:227-260 | an entry that changes anything is in (0, 60) for the session and in [0, 60) for the break |
| Handlers.SessionEditReloads | src/App.js:52 | every change of the session length by a button or an entry leaves exactly that many minutes on the clock |
| Handlers.IncrementDecrement | src/App.js:218-235 | `+` then `-` gives the length back; the break state is restored exactly, and the session shows its minutes |
| Handlers.ButtonsKeepBounds | src/App.js:218-265 | the buttons keep a length in [1, 60], and 60 is reached from 59 |
| Phase.Tick | src/App.js:54-71 | a tick takes exactly one second off a running clock and leaves an idle one unchanged |
| Phase.Due | src/App.js:75 | the phase rule is due exactly for a running clock with zero seconds or fewer left |
| Phase.PhaseRule | src/App.js:73-82 | when due, a session becomes a break with the break length loaded and a break becomes a session with the session length loaded; otherwise nothing changes |
| Phase.Settle | src/App.js:73-82 | the alert plays iff the rule was due, at most twice, and with a positive session length the result is no longer due; lengths, panel and running state are kept |
| Phase.Step | src/App.js:54-82 | a second of the clock counts down, or hands over to the next phase with one alert, or skips an empty break with two; once settled, a running clock holds at least one second |
| Phase.StepKeepsBounds | src/App.js:62-82 | with a positive session length and a break of zero or more minutes, one step keeps the time left between 0 and the longer phase |
| Phase.RunKeepsBounds | src/App.js:62-82 | with a positive session length and a break of zero or more minutes, any number of steps keeps the time left between 0 and the longer phase |
| Phase.RunAdditive | src/App.js:62-66 | running `a` then `b` seconds is running `a + b` seconds |
| Phase.Countdown | src/App.js:62-66 | before a phase ends, each second takes exactly one second off the clock |
| Phase.SessionEnds | src/App.js:73-82 | a session with `n + 1` seconds left becomes a full break after exactly `n + 1` seconds |
| Phase.BreakEnds | src/App.js:73-82 | a break with `n + 1` seconds left becomes a full session after exactly `n + 1` seconds |
| Phase.FullCycle | src/App.js:73-82 | a fresh session and its break come back to the same state after the two lengths in seconds, so the clock alternates with that period |
| Widget.Handle | src/App.js:136-265 | the gear does nothing outside default, the settings reset does nothing at 25/5, only start/stop and reset change the status, only the gear and the check mark change the panel, and the tick is the interval's tick |
| Widget.Dispatch | src/App.js:136-265 | every control keeps the invariant, user controls never play the alert, and the gear does nothing outside default |
| Widget.HandleKeepsInv | src/App.js:52-107 | each handler keeps the invariant on its own |
| Widget.ReplayInv | src/App.js:13-18 | every settled reachable state has a session length in [1, 60], a break length in [0, 60] and between 1 and 3600 seconds left, and at default the clock holds the session length |
| Widget.InvDisplay | src/App.js:28 | in every settled state with the invariant the clock shows between 1 and 3600 seconds as a well-formed `MM:SS` that reads back as the time left, and never `00:00` |
| Widget.ReachableDisplay | src/App.js:28 | every settled reachable display reads back as the time left, between 1 and 3600 seconds, and is never `00:00` |
| Widget.ReplaySnoc | src/App.js:136-265 | one more event after a sequence is one more dispatch on the state it reached |
| Widget.ReplayTicks | src/App.js:62-66 | `n` ticks after any events are `n` seconds of the running clock |
| Widget.TickRendersZero | src/App.js:62-82 | the last tick of a phase leaves zero seconds, displayed as `00:00`, with the phase rule due |
| Widget.InitialDisplay | src/App.js:3-17 | on load the status is default, the lengths are 25/5 and the display reads `25:00` |
| Widget.EnterThenStart | src/App.js:85-92 | entering a session of `m` minutes and pressing start begins a session with `m` minutes on the clock |
| Widget.TicksEndSession | src/App.js:62-82 | from any reachable session with `n + 1` seconds left, `n` ticks leave it a session and one more tick begins the full break |
| Widget.EnteredSessionEnds | src/App.js:73-82 | after entering a session of `m` minutes and starting, it is still a session one tick before `m * 60`, and at `m * 60` ticks a five-minute break begins |
| Widget.BreakDisplay | src/App.js:28 | the default break shows `05:00` when it begins |
| Widget.DecrementAtOne | src/App.js:235 | `-` on a one-minute session does nothing |
| Widget.ResetRestoresLoad | src/App.js:94-101 | reset from any reachable state returns to the state on load, apart from the panel |

## Left out

- Audio: `play()` on a phase change is counted as `alerts` in `Phase.Settled`. The `pause()` and rewind on reset are not modelled, because they change no state of the clock.
- Timers and React scheduling: the interval handle, its start and stop effect, and render batching are not modelled. A tick is one atomic step that happens only while the clock runs, which the model treats as when the interval exists.
- Width measurement and the scale's `translateX` are not modelled, because they are floating-point, cosmetic and depend on the DOM.
- JSX, CSS classes, icons and the status label are not modelled. Of the `disabled` attributes, two are kept in `Widget.Handle`: the gear works only at default, and the settings reset only when a length differs from its default.
- Which side of the panel is visible is not consulted. Every control may fire in every state, so the invariants are proved for more event sequences than the page allows.
- String-to-number coercion of the `<input>` values is not modelled. Entries are integers, so fractional entries are outside the model. An empty field coerces to 0, which the entry `0` covers: the break accepts it and the session ignores it.
- The render between a phase's last tick and the phase effect is not a model state. React paints the tick's `timeLeft = 0`, so `00:00` shows for a moment at each phase end, with `BREAK 00:00` as well for a zero-minute break, before the effect swaps the phase. `Phase.Step` takes the tick and the effect as one move. `Widget.TickRendersZero` states that intermediate display; the invariant and the display lemmas speak of settled states.
- Phase.Settle: fires the phase rule at most twice. With a positive session length, which every reachable state has, that always reaches a state where the rule is not due. With both lengths zero or below, the source would fire forever, and the model stops after two firings.

=== FILE: display.dfy ===
/**
 The `MM:SS` rendering of the seconds left. Each half is built the way the
 component builds it: the number is turned into its JavaScript decimal string,
 a '0' is prepended and the last two characters are kept (`slice(-2)`).
 Minutes are `Math.floor(t / 60)`; seconds are JavaScript's `t % 60`, whose
 sign follows the dividend. `ParseClock` is the reading direction used to
 state that the display loses nothing for the values the clock can hold.
 */
module Display {

  datatype Option<T> = None | Some(value: T)

  predicate IsDigit(c: char)
  {
    '0' <= c <= '9'
  }

  function DigitChar(d: int): (c: char)
    requires 0 <= d < 10
    ensures IsDigit(c) && DigitValue(c) == d
  {
    (('0' as int) + d) as char
  }

  function DigitValue(c: char): (d: int)
    ensures IsDigit(c) ==> 0 <= d < 10
  {
    (c as int) - ('0' as int)
  }

  /** JavaScript's decimal rendering of a non-negative integer: no leading zeros. */
  function Decimal(n: nat): (r: string)
    ensures 1 <= |r|
    ensures forall i :: 0 <= i < |r| ==> IsDigit(r[i])
    ensures n < 10 <==> |r| == 1
    ensures r[0] == '0' ==> n == 0
  {
    if n < 10 then [DigitChar(n)] else Decimal(n / 10) + [DigitChar(n % 10)]
  }

  /** The value of a string of digits, most significant first. */
  function DecimalValue(s: string): int
  {
    if s == [] then 0 else DecimalValue(s[..|s| - 1]) * 10 + DigitValue(s[|s| - 1])
  }

  /** Decimal rendering is faithful: reading the digits back gives the number. */
  lemma {:induction false} DecimalRoundTrip(n: nat)
    ensures DecimalValue(Decimal(n)) == n
  {
    if n >= 10 {
      var prefix := Decimal(n / 10);
      var s := prefix + [DigitChar(n % 10)];
      assert s[..|s| - 1] == prefix;
      DecimalRoundTrip(n / 10);
    }
  }

  /** JavaScript's `String(x)` for an integer: a minus sign, then the digits of |x|.
      JavaScript switches to exponent notation from 1e21 on; the clock's values
      stay far below that, and this rendering is the one for |x| < 1e21. */
  function JsString(x: int): (r: string)
    ensures 1 <= |r| && (r[0] == '-' <==> x < 0)
    ensures x < 0 ==> |r| >= 2
    ensures forall i :: (if x < 0 then 1 else 0) <= i < |r| ==> IsDigit(r[i])
    ensures r[if x < 0 then 1 else 0] == '0' ==> x == 0
  {
    if x < 0 then "-" + Decimal(-x) else Decimal(x)
  }

  /** The value of an optionally signed string of digits. */
  function SignedValue(s: string): int
  {
    if |s| > 0 && s[0] == '-' then -DecimalValue(s[1..]) else DecimalValue(s)
  }

  /** Reading a number's string back gives the number. */
  lemma JsStringRoundTrip(x: int)
    ensures SignedValue(JsString(x)) == x
  {
    if x < 0 {
      assert JsString(x)[1..] == Decimal(-x);
      DecimalRoundTrip(-x);
    } else {
      DecimalRoundTrip(x);
    }
  }

  /** JavaScript's `%` with a positive divisor: truncating, so the sign follows `a`. */
  function JsRem(a: int, b: int): (r: int)
    requires b > 0
    ensures -b < r < b
    ensures (a - r) % b == 0
    ensures a >= 0 ==> 0 <= r
    ensures a < 0 ==> r <= 0
  {
    RemainderDivides(a, b);
    if a >= 0 then a % b else -((-a) % b)
  }

  /** What the truncating remainder leaves is a multiple of the divisor. */
  lemma RemainderDivides(a: int, b: int)
    requires b > 0
    ensures a >= 0 ==> (a - a % b) % b == 0
    ensures a < 0 ==> (a + (-a) % b) % b == 0
  {
    if a >= 0 {
      var q := a / b;
      assert a - a % b == q * b;
      MultipleMod(b, q);
    } else {
      var c := -a;
      var q := c / b;
      assert c - c % b == q * b;
      assert a + c % b == (-q) * b;
      MultipleMod(b, -q);
    }
  }

  /** A multiple of `b` leaves no remainder. */
  lemma MultipleMod(b: int, k: int)
    requires b > 0
    ensures (k * b) % b == 0
  {
    var q, m := (k * b) / b, (k * b) % b;
    assert (k - q) * b == m;
    if k - q >= 1 {
      MulAtLeast(k - q, b);
    } else if k - q <= -1 {
      MulAtLeast(q - k, b);
    }
  }

  lemma MulAtLeast(x: int, b: int)
    requires x >= 1 && b > 0
    ensures x * b >= b
  {
  }

  /** `Math.floor(a / b)` for integers and a positive divisor (Dafny's `/` floors then). */
  function FloorDiv(a: int, b: int): (q: int)
    requires b > 0
    ensures q * b <= a < q * b + b
  {
    a / b
  }

  /** `s.slice(-2)`: the last two characters, or the whole string when shorter. */
  function Last2(s: string): (r: string)
    ensures |r| == if |s| < 2 then |s| else 2
    ensures forall i :: 0 <= i < |r| ==> r[i] == s[|s| - |r| + i]
  {
    if |s| <= 2 then s else s[|s| - 2..]
  }

  /** `('0' + x).slice(-2)`: the two-character zero pad. */
  function Pad2(x: int): (r: string)
    ensures |r| == 2
    ensures r[1] == JsString(x)[|JsString(x)| - 1]
    ensures 0 <= x < 10 ==> r[0] == '0' && r[1] == DigitChar(x)
  {
    Last2("0" + JsString(x))
  }

  /** The `MM:SS` display of the seconds left. */
  function Format(t: int): (r: string)
    ensures |r| == 5 && r[2] == ':'
  {
    Pad2(FloorDiv(t, 60)) + ":" + Pad2(JsRem(t, 60))
  }

  /** The pad of a number below 100 is exactly its tens digit followed by its units digit. */
  lemma Pad2Digits(x: int)
    requires 0 <= x < 100
    ensures Pad2(x) == [DigitChar(x / 10), DigitChar(x % 10)]
  {
    var d := if x >= 10 then [DigitChar(x / 10), DigitChar(x % 10)] else [DigitChar(x)];
    if x >= 10 {
      assert Decimal(x / 10) == [DigitChar(x / 10)];
      assert Decimal(x) == Decimal(x / 10) + [DigitChar(x % 10)];
    }
    assert JsString(x) == d;
    assert ("0" + d)[|"0" + d| - 2..] == [DigitChar(x / 10), DigitChar(x % 10)];
  }

  /** Reads a `MM:SS` string back into seconds; anything else is not a clock reading. */
  function ParseClock(s: string): (r: Option<int>)
    ensures r.Some? ==> 0 <= r.value
    ensures r.Some? <==> |s| == 5 && s[2] == ':'
                         && IsDigit(s[0]) && IsDigit(s[1]) && IsDigit(s[3]) && IsDigit(s[4])
  {
    if |s| == 5 && s[2] == ':' && IsDigit(s[0]) && IsDigit(s[1]) && IsDigit(s[3]) && IsDigit(s[4]) then
      var minutes := DigitValue(s[0]) * 10 + DigitValue(s[1]);
      var seconds := DigitValue(s[3]) * 10 + DigitValue(s[4]);
      assert 0 <= minutes && 0 <= seconds;
      Some(minutes * 60 + seconds)
    else
      None
  }

  /** The display of a time whose whole minutes are `m` and leftover seconds `sec`
      spells the two digits of `m`, a colon and the two digits of `sec`. */
  lemma FormatSpells(t: int, m: int, sec: int)
    requires 0 <= t && 0 <= m < 100 && t / 60 == m && t % 60 == sec
    ensures Format(t) == [DigitChar(m / 10), DigitChar(m % 10), ':', DigitChar(sec / 10), DigitChar(sec % 10)]
  {
    assert FloorDiv(t, 60) == m && JsRem(t, 60) == sec;
    Pad2Digits(m);
    Pad2Digits(sec);
    JoinClock(Pad2(m), Pad2(sec));
  }

  /** Two two-character halves around a colon. */
  lemma JoinClock(a: string, b: string)
    requires |a| == 2 && |b| == 2
    ensures a + ":" + b == [a[0], a[1], ':', b[0], b[1]]
  {
  }

  /** The shape of the display for every time below 100 minutes, the clock's
      whole reachable range included: five characters, two digits of whole
      minutes, a colon, two digits of seconds. */
  lemma FormatShape(t: int)
    requires 0 <= t < 6000
    ensures |Format(t)| == 5
    ensures Format(t)[2] == ':'
    ensures Format(t)[0] == DigitChar(t / 60 / 10) && Format(t)[1] == DigitChar(t / 60 % 10)
    ensures Format(t)[3] == DigitChar(t % 60 / 10) && Format(t)[4] == DigitChar(t % 60 % 10)
  {
    var m, sec := t / 60, t % 60;
    assert m < 100;
    FormatSpells(t, m, sec);
  }

  /** Formatting then reading back gives the time: the display is lossless below 100 minutes. */
  lemma FormatRoundTrip(t: int)
    requires 0 <= t < 6000
    ensures ParseClock(Format(t)) == Some(t)
  {
    FormatShape(t);
    var m, sec := t / 60, t % 60;
    assert (m / 10) * 10 + m % 10 == m;
    assert (sec / 10) * 10 + sec % 10 == sec;
  }

  /** Whole minutes and leftover seconds are recovered by division and modulus. */
  lemma SplitMinutes(m: int, sec: int)
    requires 0 <= sec < 60
    ensures (m * 60 + sec) / 60 == m && (m * 60 + sec) % 60 == sec
  {
  }

  /** Tens and units are recovered by division and modulus. */
  lemma SplitTens(tens: int, units: int)
    requires 0 <= units < 10
    ensures (tens * 10 + units) / 10 == tens && (tens * 10 + units) % 10 == units
  {
  }

  lemma DigitCharOfValue(c: char)
    requires IsDigit(c)
    ensures DigitChar(DigitValue(c)) == c
  {
  }

  lemma FiveChars(f: string, a: char, b: char, c: char, d: char, e: char)
    requires |f| == 5 && f[0] == a && f[1] == b && f[2] == c && f[3] == d && f[4] == e
    ensures f == [a, b, c, d, e]
  {
  }

  /** The other direction: every well-formed `MM:SS` with seconds below 60 is the display of the time it reads as. */
  lemma ParseRoundTrip(s: string)
    requires ParseClock(s).Some? && s[3] <= '5'
    ensures Format(ParseClock(s).value) == s
  {
    var d0, d1, d3, d4 := DigitValue(s[0]), DigitValue(s[1]), DigitValue(s[3]), DigitValue(s[4]);
    var m, sec := d0 * 10 + d1, d3 * 10 + d4;
    var t := ParseClock(s).value;
    assert t == m * 60 + sec;
    SplitMinutes(m, sec);
    SplitTens(d0, d1);
    SplitTens(d3, d4);
    FormatSpells(t, m, sec);
    DigitCharOfValue(s[0]);
    DigitCharOfValue(s[1]);
    DigitCharOfValue(s[3]);
    DigitCharOfValue(s[4]);
    FiveChars(s, DigitChar(d0), DigitChar(d1), ':', DigitChar(d3), DigitChar(d4));
  }

  /** No positive time below 100 minutes is displayed as `00:00`. */
  lemma NeverZeroDisplay(t: int)
    requires 0 < t < 6000
    ensures Format(t) != "00:00"
  {
    FormatRoundTrip(t);
    ZeroReading();
  }

  lemma ZeroReading()
    ensures ParseClock("00:00") == Some(0)
  {
    assert DigitValue('0') == 0;
  }

  /** A full default session, 1500 seconds, is displayed as `25:00`. */
  lemma DefaultSessionDisplay(t: int)
    requires t == 25 * 60
    ensures Format(t) == "25:00"
  {
    FormatSpells(t, 25, 0);
  }
}

=== FILE: handlers.dfy ===
/**
 The user-triggered handlers of the widget, each composed with the one
 reactive effect that follows every change of the session length: the
 seconds left are reloaded from the new session length. React runs that
 effect only when `sessionTime` actually changed, which `Sync` models by
 comparing the state before and after the handler.
 */
module Handlers {
  import opened Timer

  /** The start/stop control's move on the status: every branch of the handler
      tests the status the click saw, so exactly one of them fires. */
  function Toggle(st: Status): (r: Status)
    ensures IsRunning(r) != IsRunning(st)
    ensures r != Default && r != st
  {
    match st
    case Default => Session
    case Session => SessionPause
    case SessionPause => Session
    case Break => BreakPause
    case BreakPause => Break
  }

  /** The legal start/stop moves, listed pair by pair. */
  const Moves: set<(Status, Status)> :=
    {(Default, Session), (Session, SessionPause), (SessionPause, Session),
     (Break, BreakPause), (BreakPause, Break)}

  /** Start/stop makes exactly the listed moves: a pair is a move iff the control produces it. */
  lemma ToggleIsMoves(a: Status, b: Status)
    ensures (a, b) in Moves <==> Toggle(a) == b
  {
  }

  /** Start/stop changes the status and nothing else. */
  function StartStop(s: State): (r: State)
    ensures (s.status, r.status) in Moves
    ensures r.sessionTime == s.sessionTime && r.breakTime == s.breakTime
    ensures r.timeLeft == s.timeLeft && r.showSettings == s.showSettings
  {
    ToggleIsMoves(s.status, Toggle(s.status));
    s.(status := Toggle(s.status))
  }

  /** Pressing start/stop twice from anywhere but `default` gives the status back. */
  lemma StartStopTwice(s: State)
    requires s.status != Default
    ensures StartStop(StartStop(s)) == s
  {
  }

  /** From `default` one press starts a session: never a break, never a pause. */
  lemma StartFromDefault(s: State)
    requires s.status == Default
    ensures StartStop(s).status == Session
    ensures StartStop(s).status !in {Break, SessionPause, BreakPause}
  {
  }

  /** Start/stop always flips whether the clock runs, and a break is only ever
      resumed by it, never entered from another phase. */
  lemma StartStopFlipsRunning(st: Status)
    ensures IsRunning(Toggle(st)) <==> !IsRunning(st)
    ensures Toggle(st) == Break ==> st == BreakPause
    ensures Toggle(st) != Default
  {
  }

  /** The sessionTime effect: after a handler turned `before` into `after`, the
      seconds left are reloaded from the session length iff that length changed. */
  function Sync(before: State, after: State): (r: State)
    ensures r.sessionTime != before.sessionTime ==> r.timeLeft == r.sessionTime * SecondsPerMinute
    ensures r.sessionTime == before.sessionTime ==> r == after
    ensures r.(timeLeft := after.timeLeft) == after
  {
    if after.sessionTime != before.sessionTime then
      after.(timeLeft := after.sessionTime * SecondsPerMinute)
    else
      after
  }

  /** The reset button's handler as written: every field is set in one batch, and
      the seconds left are computed from the session length the click saw. */
  function ResetHandler(s: State): (r: State)
    ensures r.status == Default
    ensures r.sessionTime == InitialSessionTime && r.breakTime == InitialBreakTime
    ensures r.timeLeft == s.sessionTime * SecondsPerMinute
  {
    s.(status := Default, sessionTime := InitialSessionTime, breakTime := InitialBreakTime,
       timeLeft := s.sessionTime * SecondsPerMinute)
  }

  /** Reset followed by the sessionTime effect: whatever the stale length was,
      the clock ends at default with 25/5 minutes and 25:00 on the display. */
  function Reset(s: State): (r: State)
    ensures r.status == Default
    ensures r.sessionTime == InitialSessionTime && r.breakTime == InitialBreakTime
    ensures r.timeLeft == InitialSessionTime * SecondsPerMinute
    ensures r.showSettings == s.showSettings
  {
    Sync(s, ResetHandler(s))
  }

  /** The stale read is repaired by the effect: had the effect not run, a reset
      from any other session length would show that length's seconds. */
  lemma ResetStaleReadRepaired(s: State)
    requires s.sessionTime != InitialSessionTime
    ensures ResetHandler(s).timeLeft != InitialSessionTime * SecondsPerMinute
    ensures Reset(s).timeLeft == InitialSessionTime * SecondsPerMinute
  {
  }

  /** The settings panel's reset handler followed by the sessionTime effect:
      both lengths go back to 25/5, the clock shows 25:00, the status is kept. */
  function SettingsReset(s: State): (r: State)
    ensures r.sessionTime == InitialSessionTime && r.breakTime == InitialBreakTime
    ensures r.timeLeft == InitialSessionTime * SecondsPerMinute
    ensures r.status == s.status && r.showSettings == s.showSettings
  {
    Sync(s, s.(sessionTime := InitialSessionTime, breakTime := InitialBreakTime,
               timeLeft := s.sessionTime * SecondsPerMinute))
  }

  /** The settings flip: only the panel visibility changes. */
  function Flip(s: State): (r: State)
    ensures r.showSettings != s.showSettings
    ensures r.(showSettings := s.showSettings) == s
  {
    s.(showSettings := !s.showSettings)
  }

  /** Flipping twice shows the same side again. */
  lemma FlipTwice(s: State)
    ensures Flip(Flip(s)) == s
  {
  }

  /** The two lengths the settings panel edits. */
  datatype Length = SessionLength | BreakLength

  function LengthOf(s: State, w: Length): int
  {
    match w
    case SessionLength => s.sessionTime
    case BreakLength => s.breakTime
  }

  /** A length setter followed by the sessionTime effect. */
  function SetLength(s: State, w: Length, v: int): (r: State)
    ensures LengthOf(r, w) == v
    ensures w == BreakLength ==> r == s.(breakTime := v)
    ensures w == SessionLength && v != s.sessionTime ==> r.timeLeft == v * SecondsPerMinute
    ensures w == SessionLength && v == s.sessionTime ==> r == s
    ensures r.status == s.status && r.showSettings == s.showSettings
    ensures w == SessionLength ==> r.breakTime == s.breakTime
  {
    match w
    case SessionLength => Sync(s, s.(sessionTime := v))
    case BreakLength => Sync(s, s.(breakTime := v))
  }

  /** The `+` button: fires only below 60. */
  function Increment(s: State, w: Length): (r: State)
    ensures LengthOf(s, w) < LengthLimit ==> LengthOf(r, w) == LengthOf(s, w) + 1
    ensures LengthOf(s, w) >= LengthLimit ==> r == s
    ensures r.status == s.status && r.showSettings == s.showSettings
    ensures LengthOf(r, Other(w)) == LengthOf(s, Other(w))
    ensures w == BreakLength ==> r.timeLeft == s.timeLeft
  {
    if LengthOf(s, w) < LengthLimit then SetLength(s, w, LengthOf(s, w) + 1) else s
  }

  /** The `-` button: fires only above 1. */
  function Decrement(s: State, w: Length): (r: State)
    ensures LengthOf(s, w) > 1 ==> LengthOf(r, w) == LengthOf(s, w) - 1
    ensures LengthOf(s, w) <= 1 ==> r == s
    ensures r.status == s.status && r.showSettings == s.showSettings
    ensures LengthOf(r, Other(w)) == LengthOf(s, Other(w))
    ensures w == BreakLength ==> r.timeLeft == s.timeLeft
  {
    if LengthOf(s, w) > 1 then SetLength(s, w, LengthOf(s, w) - 1) else s
  }

  function Other(w: Length): Length
  {
    match w
    case SessionLength => BreakLength
    case BreakLength => SessionLength
  }

  /** The smallest value a direct entry accepts: the session field tests `> 0`,
      the break field `>= 0`. */
  function MinEntry(w: Length): int
  {
    match w
    case SessionLength => 1
    case BreakLength => 0
  }

  /** Direct numeric entry: accepted values replace the length, any other value is ignored. */
  function Enter(s: State, w: Length, v: int): (r: State)
    ensures MinEntry(w) <= v < LengthLimit ==> LengthOf(r, w) == v
    ensures !(MinEntry(w) <= v < LengthLimit) ==> r == s
    ensures w == SessionLength && 0 < v < LengthLimit && v != s.sessionTime ==> r.timeLeft == v * SecondsPerMinute
    ensures w == BreakLength ==> r.timeLeft == s.timeLeft
    ensures w == SessionLength && v == s.sessionTime ==> r == s
    ensures r.status == s.status && r.showSettings == s.showSettings
    ensures LengthOf(r, Other(w)) == LengthOf(s, Other(w))
  {
    if MinEntry(w) <= v < LengthLimit then SetLength(s, w, v) else s
  }

  /** Every accepted session value lies in (0, 60) and every accepted break value in [0, 60). */
  lemma EnterAcceptance(s: State, w: Length, v: int)
    ensures Enter(s, w, v) != s ==> (w == SessionLength ==> 0 < v < 60) && (w == BreakLength ==> 0 <= v < 60)
  {
  }

  /** Every change of the session length by a button or an entry leaves the clock
      showing exactly that many minutes. */
  lemma SessionEditReloads(s: State, v: int)
    ensures Increment(s, SessionLength).sessionTime != s.sessionTime
            ==> Increment(s, SessionLength).timeLeft == Increment(s, SessionLength).sessionTime * 60
    ensures Decrement(s, SessionLength).sessionTime != s.sessionTime
            ==> Decrement(s, SessionLength).timeLeft == Decrement(s, SessionLength).sessionTime * 60
    ensures Enter(s, SessionLength, v).sessionTime != s.sessionTime
            ==> Enter(s, SessionLength, v).timeLeft == v * 60
  {
  }

  /** `+` then `-` gives the length back, and for the session length the display shows it. */
  lemma IncrementDecrement(s: State, w: Length)
    requires 1 <= LengthOf(s, w) < LengthLimit
    ensures LengthOf(Decrement(Increment(s, w), w), w) == LengthOf(s, w)
    ensures w == SessionLength ==> Decrement(Increment(s, w), w).timeLeft == s.sessionTime * 60
    ensures w == BreakLength ==> Decrement(Increment(s, w), w) == s
  {
  }

  /** The buttons keep a length inside [1, 60], and 60 itself is reached from 59. */
  lemma ButtonsKeepBounds(s: State, w: Length)
    requires 1 <= LengthOf(s, w) <= LengthLimit
    ensures 1 <= LengthOf(Increment(s, w), w) <= LengthLimit
    ensures 1 <= LengthOf(Decrement(s, w), w) <= LengthLimit
    ensures LengthOf(s, w) == 59 ==> LengthOf(Increment(s, w), w) == 60
  {
  }
}

=== FILE: phase.dfy ===
/**
 The tick driver and the phase rule. A tick takes one second off a running
 clock. The phase rule fires whenever the clock is running with nothing left:
 it plays the alert, swaps session and break, and loads the next phase's
 length. React re-runs the rule after each firing, so a break of zero
 minutes ends as soon as it starts; `Settle` is that cascade. A `Step` is one
 tick followed by the cascade, taken as one atomic move.
 */
module Phase {
  import opened Timer

  /** One interval tick. */
  function Tick(s: State): (r: State)
    ensures IsRunning(s.status) ==> r.timeLeft == s.timeLeft - 1
    ensures r.(timeLeft := s.timeLeft) == s
    ensures !IsRunning(s.status) ==> r == s
  {
    if IsRunning(s.status) then s.(timeLeft := s.timeLeft - 1) else s
  }

  /** The phase rule's guard. */
  function Due(s: State): (r: bool)
    ensures r ==> IsRunning(s.status) && s.timeLeft < 1
    ensures IsRunning(s.status) && s.timeLeft <= 0 ==> r
  {
    s.timeLeft <= 0 && IsRunning(s.status)
  }

  /** One firing of the phase rule: session hands over to break with the break
      length loaded, break hands over to session with the session length loaded. */
  function PhaseRule(s: State): (r: State)
    ensures Due(s) && s.status == Session ==> r.status == Break && r.timeLeft == s.breakTime * SecondsPerMinute
    ensures Due(s) && s.status == Break ==> r.status == Session && r.timeLeft == s.sessionTime * SecondsPerMinute
    ensures !Due(s) ==> r == s
    ensures r.sessionTime == s.sessionTime && r.breakTime == s.breakTime && r.showSettings == s.showSettings
    ensures IsRunning(r.status) == IsRunning(s.status)
  {
    if Due(s) then
      s.(status := if s.status == Session then Break else Session,
         timeLeft := if s.status == Session then s.breakTime * SecondsPerMinute
                     else s.sessionTime * SecondsPerMinute)
    else
      s
  }

  /** A state after the phase effect has settled, with the number of times the alert played. */
  datatype Settled = Settled(state: State, alerts: nat)

  /** The phase effect run until its guard is false. Two firings always suffice
      once the session length is positive, which every reachable state has. */
  function Settle(s: State): (r: Settled)
    ensures r.alerts == 0 <==> !Due(s)
    ensures r.alerts == 0 ==> r.state == s
    ensures r.alerts <= 2
    ensures s.sessionTime >= 1 ==> !Due(r.state)
    ensures r.state.sessionTime == s.sessionTime && r.state.breakTime == s.breakTime
    ensures r.state.showSettings == s.showSettings
    ensures IsRunning(r.state.status) == IsRunning(s.status)
  {
    if !Due(s) then
      Settled(s, 0)
    else
      var once := PhaseRule(s);
      if !Due(once) then Settled(once, 1) else Settled(PhaseRule(once), 2)
  }

  /** One second of the running clock: a tick, then the phase effect. */
  function Step(s: State): (r: Settled)
    ensures !IsRunning(s.status) ==> r == Settled(s, 0)
    ensures IsRunning(s.status) && s.timeLeft > 1 ==> r == Settled(s.(timeLeft := s.timeLeft - 1), 0)
    ensures s.status == Session && s.timeLeft <= 1 && s.breakTime >= 1
            ==> r == Settled(s.(status := Break, timeLeft := s.breakTime * SecondsPerMinute), 1)
    ensures s.status == Break && s.timeLeft <= 1 && s.sessionTime >= 1
            ==> r == Settled(s.(status := Session, timeLeft := s.sessionTime * SecondsPerMinute), 1)
    ensures s.status == Session && s.timeLeft <= 1 && s.breakTime <= 0 && s.sessionTime >= 1
            ==> r == Settled(s.(timeLeft := s.sessionTime * SecondsPerMinute), 2)
    ensures s.sessionTime >= 1 && IsRunning(s.status) ==> r.state.timeLeft >= 1  // once settled
  {
    Settle(Tick(s))
  }

  /** `n` seconds of the clock. */
  function Run(s: State, n: nat): State
  {
    if n == 0 then s else Step(Run(s, n - 1)).state
  }

  /** The bounds the clock keeps while it runs on its own; a break may be empty. */
  predicate InBounds(s: State)
  {
    && s.sessionTime >= 1 && s.breakTime >= 0
    && 0 <= s.timeLeft <= SecondsPerMinute * Max(s.sessionTime, s.breakTime)
  }

  function Max(a: int, b: int): int
  {
    if a < b then b else a
  }

  /** One step keeps the seconds left between zero and the longer phase. */
  lemma StepKeepsBounds(s: State)
    requires InBounds(s)
    ensures InBounds(Step(s).state)
  {
  }

  /** Any number of steps keeps the seconds left between zero and the longer phase. */
  lemma {:induction false} RunKeepsBounds(s: State, n: nat)
    requires InBounds(s)
    ensures InBounds(Run(s, n))
  {
    if n > 0 {
      RunKeepsBounds(s, n - 1);
      StepKeepsBounds(Run(s, n - 1));
    }
  }

  /** Running `a` then `b` seconds is running `a + b` seconds. */
  lemma {:induction false} RunAdditive(s: State, a: nat, b: nat)
    ensures Run(Run(s, a), b) == Run(s, a + b)
  {
    if b > 0 {
      RunAdditive(s, a, b - 1);
    }
  }

  /** Before the phase ends, each second takes exactly one second off the clock. */
  lemma {:induction false} Countdown(s: State, n: nat)
    requires IsRunning(s.status) && n < s.timeLeft
    ensures Run(s, n) == s.(timeLeft := s.timeLeft - n)
  {
    if n > 0 {
      Countdown(s, n - 1);
    }
  }

  /** A session with `n + 1` seconds left turns into a full break after exactly `n + 1` seconds. */
  lemma SessionEnds(s: State, n: nat)
    requires s.status == Session && s.timeLeft == n + 1 && s.breakTime >= 1
    ensures Run(s, n + 1) == s.(status := Break, timeLeft := s.breakTime * SecondsPerMinute)
  {
    Countdown(s, n);
  }

  /** A break with `n + 1` seconds left turns into a full session after exactly `n + 1` seconds. */
  lemma BreakEnds(s: State, n: nat)
    requires s.status == Break && s.timeLeft == n + 1 && s.sessionTime >= 1
    ensures Run(s, n + 1) == s.(status := Session, timeLeft := s.sessionTime * SecondsPerMinute)
  {
    Countdown(s, n);
  }

  /** A fresh session followed by its break comes back to the very same state:
      the clock alternates forever with period `a + b`, the session and break
      lengths in seconds. */
  lemma FullCycle(s: State, a: nat, b: nat)
    requires s.status == Session && a == s.sessionTime * SecondsPerMinute && b == s.breakTime * SecondsPerMinute
    requires a > 0 && b > 0 && s.timeLeft == a
    ensures Run(s, a + b) == s
  {
    SessionEnds(s, a - 1);
    BreakEnds(Run(s, a), b - 1);
    RunAdditive(s, a, b);
  }
}

=== FILE: timer.dfy ===
/**
 The state record of the pomodoro clock widget: the five pieces of state the
 component keeps (phase status, session and break lengths in minutes, seconds
 left, settings-panel visibility), the initial values and the running test.
 Lengths and seconds are JavaScript numbers; the model uses unbounded `int`
 and only ever stores integral values in them.
 */
module Timer {

  /** The phase status, one constructor per status string of the component. */
  datatype Status = Default | Session | SessionPause | Break | BreakPause

  datatype State = State(
    status: Status,
    sessionTime: int,   // minutes
    breakTime: int,     // minutes
    timeLeft: int,      // seconds
    showSettings: bool
  )

  const InitialSessionTime: int := 25
  const InitialBreakTime: int := 5
  const SecondsPerMinute: int := 60
  /** The bound the increment buttons test against (`< 60`) and the direct entries stay below. */
  const LengthLimit: int := 60

  /** The state on mount: default status, 25/5 minutes, a full session on the clock, settings hidden. */
  function Initial(): (s: State)
    ensures s.timeLeft == s.sessionTime * SecondsPerMinute
    ensures s.status == Default && !s.showSettings
  {
    State(Default, InitialSessionTime, InitialBreakTime, InitialSessionTime * SecondsPerMinute, false)
  }

  /** The tick driver and the phase rule are active exactly in these two statuses. */
  function IsRunning(st: Status): (r: bool)
    ensures r <==> st != Default && st != SessionPause && st != BreakPause
  {
    st == Session || st == Break
  }
}

=== FILE: widget.dfy ===
/**
 The widget as a whole: every control and the interval tick as an event,
 each event's handler followed by the reactive effects, and the states
 reachable from the initial one by any sequence of events. The buttons'
 `disabled` guards that change behaviour are kept: the settings gear works
 only in `default`, and the settings reset only when a length differs from
 its default. Which side of the panel is visible is not consulted: every
 control may fire in every state, so the invariants hold a fortiori.
 */
module Widget {
  import opened Timer
  import opened Handlers
  import opened Phase
  import opened Display

  datatype Event =
    | StartStopClicked
    | ResetClicked
    | SettingsClicked                   // the gear on the timer side
    | SettingsDoneClicked               // the check mark on the settings side
    | SettingsResetClicked
    | IncrementClicked(which: Length)
    | DecrementClicked(which: Length)
    | Entered(which: Length, value: int)
    | TickElapsed

  /** The event's own handler, before the phase effect runs. */
  function Handle(s: State, e: Event): (r: State)
    ensures e == SettingsClicked && s.status != Default ==> r == s
    ensures e == SettingsResetClicked && s.sessionTime == InitialSessionTime && s.breakTime == InitialBreakTime ==> r == s
    ensures r.status != s.status ==> e == StartStopClicked || e == ResetClicked
    ensures r.showSettings != s.showSettings ==> e == SettingsClicked || e == SettingsDoneClicked
    ensures e == TickElapsed ==> r == Tick(s)
  {
    match e
    case StartStopClicked => StartStop(s)
    case ResetClicked => Reset(s)
    case SettingsClicked => if s.status == Default then Flip(s) else s
    case SettingsDoneClicked => Flip(s)
    case SettingsResetClicked =>
      if s.sessionTime == InitialSessionTime && s.breakTime == InitialBreakTime then s else SettingsReset(s)
    case IncrementClicked(w) => Increment(s, w)
    case DecrementClicked(w) => Decrement(s, w)
    case Entered(w, v) => Enter(s, w, v)
    case TickElapsed => Tick(s)
  }

  /** What every reachable state satisfies: the session length in [1, 60], the
      break length in [0, 60], between one second and an hour on the clock,
      and, while idle at `default`, exactly the session length on the clock. */
  predicate Inv(s: State)
  {
    && 1 <= s.sessionTime <= LengthLimit
    && 0 <= s.breakTime <= LengthLimit
    && 1 <= s.timeLeft <= LengthLimit * SecondsPerMinute
    && (s.status == Default ==> s.timeLeft == s.sessionTime * SecondsPerMinute)
  }

  /** One event: its handler, then the phase effect. */
  function Dispatch(s: State, e: Event): (r: Settled)
    ensures Inv(s) ==> Inv(r.state)
    ensures Inv(s) && e != TickElapsed ==> r.alerts == 0
    ensures Inv(s) && e == SettingsClicked && s.status != Default ==> r == Settled(s, 0)
    ensures e == TickElapsed ==> r == Step(s)
  {
    HandleKeepsInv(s, e);
    Settle(Handle(s, e))
  }

  /** Each handler on its own keeps the invariant; only the tick leaves the
      phase effect anything to do. */
  lemma HandleKeepsInv(s: State, e: Event)
    ensures Inv(s) && e != TickElapsed ==> Inv(Handle(s, e))
    ensures Inv(s) && e == TickElapsed ==> Inv(Step(s).state)
  {
    // each case follows from the contract of the handler it dispatches to
  }

  /** The state after a sequence of events from the initial one. */
  function Replay(es: seq<Event>): State
  {
    if |es| == 0 then Initial() else Dispatch(Replay(es[..|es| - 1]), es[|es| - 1]).state
  }

  /** Every reachable state satisfies the invariant. */
  lemma {:induction false} ReplayInv(es: seq<Event>)
    ensures Inv(Replay(es))
  {
    if |es| > 0 {
      ReplayInv(es[..|es| - 1]);
    }
  }

  /** One more event after a sequence is one more dispatch. */
  lemma ReplaySnoc(es: seq<Event>, e: Event)
    ensures Replay(es + [e]) == Dispatch(Replay(es), e).state
  {
    assert (es + [e])[..|es|] == es;
  }

  /** In every state satisfying the invariant the clock shows neither a
      negative nor a zero time, and shows a well-formed `MM:SS` that reads
      back as the seconds left. */
  lemma InvDisplay(s: State)
    requires Inv(s)
    ensures 1 <= s.timeLeft <= 3600
    ensures |Format(s.timeLeft)| == 5 && Format(s.timeLeft)[2] == ':'
    ensures ParseClock(Format(s.timeLeft)) == Some(s.timeLeft)
    ensures Format(s.timeLeft) != "00:00"
  {
    FormatShape(s.timeLeft);
    FormatRoundTrip(s.timeLeft);
    NeverZeroDisplay(s.timeLeft);
  }

  /** What `InvDisplay` says holds of every reachable state. */
  lemma ReachableDisplay(es: seq<Event>)
    ensures 1 <= Replay(es).timeLeft <= 3600
    ensures ParseClock(Format(Replay(es).timeLeft)) == Some(Replay(es).timeLeft)
    ensures Format(Replay(es).timeLeft) != "00:00"
  {
    ReplayInv(es);
    InvDisplay(Replay(es));
  }

  function Ticks(n: nat): (es: seq<Event>)
    ensures |es| == n
  {
    if n == 0 then [] else Ticks(n - 1) + [TickElapsed]
  }

  /** `n + 1` ticks are `n` ticks and one more. */
  lemma TicksSnoc(es: seq<Event>, n: nat)
    ensures es + Ticks(n + 1) == (es + Ticks(n)) + [TickElapsed]
  {
    assert Ticks(n + 1) == Ticks(n) + [TickElapsed];
  }

  /** `n` ticks after any sequence of events are `n` seconds of the running clock. */
  lemma {:induction false} ReplayTicks(es: seq<Event>, n: nat)
    ensures Replay(es + Ticks(n)) == Run(Replay(es), n)
  {
    if n == 0 {
      assert es + Ticks(0) == es;
    } else {
      var k: nat := n - 1;
      var prefix := es + Ticks(k);
      TicksSnoc(es, k);
      ReplaySnoc(prefix, TickElapsed);
      ReplayTicks(es, k);
      var before := Replay(prefix);
      assert before == Run(Replay(es), k);
      assert Dispatch(before, TickElapsed) == Step(before);
    }
  }

  /** The render between a phase's last tick and the phase effect: the tick
      leaves zero seconds, which the page shows as `00:00` until the effect,
      which runs after that render, swaps the phase. `Step` takes the tick and
      the effect as one move, so this render is not one of its states. */
  lemma TickRendersZero(s: State)
    requires IsRunning(s.status) && s.timeLeft == 1
    ensures Tick(s).timeLeft == 0 && Due(Tick(s))
    ensures Format(Tick(s).timeLeft) == "00:00"
  {
    FormatSpells(0, 0, 0);
  }

  /** On load: default status, 25/5 minutes, 25:00 on the display. */
  lemma InitialDisplay()
    ensures Replay([]).status == Default
    ensures Replay([]).sessionTime == 25 && Replay([]).breakTime == 5
    ensures Format(Replay([]).timeLeft) == "25:00"
  {
    assert Replay([]) == Initial();
    DefaultSessionDisplay(Replay([]).timeLeft);
  }

  /** Entering a session length of `m` minutes and pressing start begins a
      session with those minutes on the clock and the default break. */
  lemma EnterThenStart(m: int)
    requires 0 < m < 60
    ensures Replay([Entered(SessionLength, m), StartStopClicked]) == State(Session, m, 5, m * 60, false)
  {
    var idle := State(Default, m, 5, m * 60, false);
    assert Handle(Initial(), Entered(SessionLength, m)) == idle;
    assert Dispatch(Initial(), Entered(SessionLength, m)).state == idle;
    ReplaySnoc([], Entered(SessionLength, m));
    assert Replay([Entered(SessionLength, m)]) == idle;
    assert Dispatch(idle, StartStopClicked).state == idle.(status := Session);
    ReplaySnoc([Entered(SessionLength, m)], StartStopClicked);
  }

  /** Once a session with `n + 1` seconds left has been reached, it is still a
      session after `n` ticks, and after `n + 1` ticks the full break has begun. */
  lemma TicksEndSession(es: seq<Event>, n: nat)
    requires Replay(es).status == Session && Replay(es).timeLeft == n + 1 && Replay(es).breakTime >= 1
    ensures Replay(es + Ticks(n)).status == Session
    ensures Replay(es + Ticks(n + 1)) == Replay(es).(status := Break, timeLeft := Replay(es).breakTime * SecondsPerMinute)
  {
    var s := Replay(es);
    ReplayTicks(es, n);
    Countdown(s, n);
    ReplayTicks(es, n + 1);
    SessionEnds(s, n);
  }

  /** Enter a session length of `m` minutes and start: the session runs, and
      exactly `m * 60` ticks later the break has begun with its five minutes
      loaded. */
  lemma EnteredSessionEnds(m: int, n: nat)
    requires 0 < m < 60 && n + 1 == m * 60
    ensures Replay([Entered(SessionLength, m), StartStopClicked] + Ticks(n)).status == Session
    ensures Replay([Entered(SessionLength, m), StartStopClicked] + Ticks(n + 1)) == State(Break, m, 5, 300, false)
  {
    EnterThenStart(m);
    TicksEndSession([Entered(SessionLength, m), StartStopClicked], n);
  }

  /** The break of the default length shows `05:00` when it begins. */
  lemma BreakDisplay()
    ensures Format(InitialBreakTime * 60) == "05:00"
  {
    FormatSpells(300, 5, 0);
  }

  /** The session length does not go below one minute: `-` at one minute does nothing. */
  lemma DecrementAtOne(s: State)
    requires Inv(s) && s.sessionTime == 1
    ensures Dispatch(s, DecrementClicked(SessionLength)) == Settled(s, 0)
  {
  }

  /** Reset from any reachable state returns to the state on load, the panel aside. */
  lemma ResetRestoresLoad(es: seq<Event>)
    ensures Replay(es + [ResetClicked]) == Initial().(showSettings := Replay(es).showSettings)
  {
    ReplayInv(es);
    ReplaySnoc(es, ResetClicked);
  }
}
